=== FILE: README.md ===
# Friction simulator and video player controls, modelled in Dafny

This project models the two pieces of state logic in an educational
single-page application:

- **The friction simulator** (`src/pages/FrictionSimulation.tsx`). A point
  mass sits on an incline whose surface (ice, wood, metal, rubber or concrete)
  fixes the friction coefficient μ. Whenever the mass, the angle or μ changes,
  the page recomputes the weight, the normal force, the friction force, the
  net force (floored at zero) and the acceleration. While the simulation runs,
  every animation frame does one Euler step of velocity and position. The step
  is capped at 0.1 s, uses a ×50 distance scale and clamps the position to the
  700-unit incline. The run stops once the unclamped position reaches 658
  (700 − 42). Reset puts the body back at rest at the top.
- **The video player controls** (`src/components/VideoPlayer.tsx`). This part
  covers the `m:ss` time display, the "video has ended" rule, and the
  handlers. The handlers are play/pause, mute, the volume slider, the arrow
  keys, the ±10 s skips, the speed menu and the ended check. They update the
  page's own state and the `<video>` element.

All quantities are Dafny `real`s, so the model has no rounding. The incline
angle enters only through sin α and cos α. These are parameters bounded by
0 ≤ sin α and 0 < cos α ≤ 1, and g is exactly 9.8.

Layout:

- `util.dfy` (module `Util`): an option type and the `Math.min`/`Math.max`
  clamping helpers.
- `friction.dfy` (module `FrictionSimulation`): the surface table, the force
  recompute `Recompute`, one frame `Step`, a sequence of frames `Run`, and the
  class `Simulation`. The class's methods are proved to follow those
  functions.
- `video_player.dfy` (module `VideoPlayer`): `FormatTime` and its read-back
  lemma, `IsVideoEnded`, and one transition function per handler on the value
  `PlayerState`. The class `Player` keeps the same fields, and each of its
  methods is proved to perform exactly its transition.

The model shows one behaviour of the source that may surprise. The up and
down arrow keys and the volume slider change the page's `isMuted` flag. They
never change the element's `muted` property. After muting with the button,
one press of the up arrow therefore shows the player as unmuted while the
element stays muted (`VideoPlayer.VolumeKeysLeaveElementMuted`). The model
keeps this behaviour as written.

## Model

| member | source | states |
|---|---|---|
| `FrictionSimulation.ParseSurface` | src/pages/FrictionSimulation.tsx:27-33 | a select-box value is recognised only if it is the key stored for the surface it maps to |
| `FrictionSimulation.SurfaceNameRoundTrip` | src/pages/FrictionSimulation.tsx:425-429 | each option value of the surface select is found again under its own surface, and only option values are found |
| `FrictionSimulation.Coefficient` | src/pages/FrictionSimulation.tsx:27-33 | every surface has a coefficient strictly between 0 and 1 |
| `FrictionSimulation.CoefficientOf` | src/pages/FrictionSimulation.tsx:39-41 | the table lookup gives a coefficient in (0, 1) exactly for the five keys, and nothing for any other string |
| `FrictionSimulation.SurfaceTable` | src/pages/FrictionSimulation.tsx:27-33 | ice 0.05, wood 0.3, metal 0.6, rubber 0.8, concrete 0.7, and nothing for an unknown key |
| `FrictionSimulation.CoefficientsDistinct` | src/pages/FrictionSimulation.tsx:27-33 | two surfaces share a coefficient only if they are the same surface; ice is the lowest and rubber the highest |
| `FrictionSimulation.Recompute` | src/pages/FrictionSimulation.tsx:43-60 | the stored net force is max(m·g·sin α − friction, 0), so it and the acceleration are never negative |
| `FrictionSimulation.ForceComponents` | src/pages/FrictionSimulation.tsx:44-52 | gravity = m·g, normal = gravity·cos α, friction = μ·normal, and 0 < normal ≤ gravity, 0 ≤ friction ≤ μ·gravity |
| `FrictionSimulation.AccelerationTimesMass` | src/pages/FrictionSimulation.tsx:57-58 | acceleration·m equals the stored net force (zero when the raw net force is not positive) |
| `FrictionSimulation.AccelerationFormula` | src/pages/FrictionSimulation.tsx:54-58 | the acceleration equals the textbook value max(g·(sin α − μ·cos α), 0) |
| `FrictionSimulation.AccelerationIndependentOfMass` | src/pages/FrictionSimulation.tsx:54-58 | two masses on the same incline and surface get the same acceleration |
| `FrictionSimulation.StaticIffFrictionDominates` | src/pages/FrictionSimulation.tsx:54-58 | net force and acceleration are both 0 exactly when μ ≥ tan α, and both positive exactly when μ < tan α |
| `FrictionSimulation.AccelerationBound` | src/pages/FrictionSimulation.tsx:45-58 | with μ ≥ 0 the acceleration never exceeds g·sin α |
| `FrictionSimulation.FrameDelta` | src/pages/FrictionSimulation.tsx:65-66 | the time step never exceeds 0.1 s, is non-negative when time moves forward, is the real elapsed time for gaps up to 100 ms, and is exactly 0.1 s for gaps of 100 ms or more |
| `FrictionSimulation.NextVelocity` | src/pages/FrictionSimulation.tsx:68 | with acceleration ≥ 0 and Δt ≥ 0 the new velocity is never below the old one, and a zero time step leaves it unchanged |
| `FrictionSimulation.RawPosition` | src/pages/FrictionSimulation.tsx:71 | with velocity, acceleration and Δt all ≥ 0, the unclamped position is at least the old position plus v·Δt·50, the distance the old speed alone covers |
| `Util.Clamp` | src/pages/FrictionSimulation.tsx:72 | the stored position lies in [0, 700] and equals the raw position when that is already inside |
| `FrictionSimulation.Step` | src/pages/FrictionSimulation.tsx:62-82 | a stopped frame changes nothing; a running frame leaves the body on the incline and keeps running exactly when the unclamped position is below 658 |
| `FrictionSimulation.StepStaysOnSurface` | src/pages/FrictionSimulation.tsx:71-72 | from a position in [0, 700], any frame with any time step or velocity ends in [0, 700] |
| `FrictionSimulation.StopTestOnClampedPosition` | src/pages/FrictionSimulation.tsx:72-76 | testing the unclamped or the stored clamped position against 658 stops the same frames |
| `FrictionSimulation.StepMonotone` | src/pages/FrictionSimulation.tsx:68-72 | with Δt ≥ 0, acceleration ≥ 0 and velocity ≥ 0, a frame never lowers the velocity or the position |
| `FrictionSimulation.StepProgress` | src/pages/FrictionSimulation.tsx:68-79 | a frame of at least d seconds that keeps running moves the body at least v·d·50 and leaves it short of 658 |
| `FrictionSimulation.RunWhenStopped` | src/pages/FrictionSimulation.tsx:63 | once stopped, any number of further frames leave the state unchanged |
| `FrictionSimulation.RunMonotone` | src/pages/FrictionSimulation.tsx:62-82 | over any number of frames with non-negative time steps, the body stays on the incline and its position and velocity never decrease |
| `FrictionSimulation.RunProgress` | src/pages/FrictionSimulation.tsx:62-82 | while the run continues, n frames of at least d seconds have moved the body by at least g added n times, for any g ≤ w·d·50 where w ≤ v is a speed the body already has |
| `FrictionSimulation.FirstFrame` | src/pages/FrictionSimulation.tsx:68-72 | a continuing frame keeps the body on the incline, keeps it at least at speed w, and moves it by at least any gain g ≤ w·d·50 |
| `FrictionSimulation.RunningBeforeStopMark` | src/pages/FrictionSimulation.tsx:76-81 | after at least one frame, a run that is still going is short of 658 |
| `FrictionSimulation.RunStops` | src/pages/FrictionSimulation.tsx:76-81 | once the frames would have covered the distance to 658 at the starting speed, the run has stopped |
| `FrictionSimulation.RunFromRestStops` | src/pages/FrictionSimulation.tsx:62-82 | from rest at the top with acceleration a > 0, n frames of at least d seconds stop the run once (n − 1)·a·d²·50 ≥ 658 |
| `FrictionSimulation.Simulation.constructor` | src/pages/FrictionSimulation.tsx:8-20 | the page mounts on wood, 1 kg, 0°, at rest and stopped, with the forces already recomputed (net 0, acceleration 0) |
| `FrictionSimulation.Simulation.RecomputeForces` | src/pages/FrictionSimulation.tsx:43-60 | the stored forces become the recompute of the current mass, angle and μ |
| `FrictionSimulation.Simulation.SetSurface` | src/pages/FrictionSimulation.tsx:39-41 | choosing a surface while stopped sets μ to its coefficient and recomputes the forces; the mass, the angle and the motion are unchanged |
| `FrictionSimulation.Simulation.SetMass` | src/pages/FrictionSimulation.tsx:437-446 | changing the mass while stopped recomputes the forces and leaves the acceleration and the motion unchanged |
| `FrictionSimulation.Simulation.SetAngle` | src/pages/FrictionSimulation.tsx:453-462 | changing the angle while stopped recomputes the forces for its sin and cos; the surface, the mass and the motion are unchanged |
| `FrictionSimulation.Simulation.ToggleRunning` | src/pages/FrictionSimulation.tsx:466-467 | start/pause flips the running flag, and starting takes the current time as the previous frame's time, as the effect at lines 84-87 sets `lastTimeRef` |
| `FrictionSimulation.Simulation.Animate` | src/pages/FrictionSimulation.tsx:62-82 | when stopped the frame changes nothing and schedules nothing; otherwise the state becomes `Step` of the old one with the capped Δt, and a next frame is scheduled exactly when the unclamped position is below 658 |
| `FrictionSimulation.Simulation.Reset` | src/pages/FrictionSimulation.tsx:270-274 | position 0, velocity 0 and stopped, with μ, the forces, the net force and the acceleration untouched |
| `VideoPlayer.JsRemainder` | src/components/VideoPlayer.tsx:131 | for t ≥ 0, `t % 60` lies in [0, 60) and is t − 60·⌊t/60⌋ |
| `VideoPlayer.DecimalString` | src/components/VideoPlayer.tsx:132 | a number is shown as a non-empty string of decimal digits, a single digit exactly below 10, starting with `0` only for 0 itself |
| `VideoPlayer.DecimalRoundTrip` | src/components/VideoPlayer.tsx:132 | reading back the shown digits gives the number |
| `VideoPlayer.IntString` | src/components/VideoPlayer.tsx:132 | a non-negative integer is shown as digits reading back as the integer, with no leading zero unless it is the single digit 0; a negative one as `-` followed by digits reading back as its magnitude |
| `VideoPlayer.SecondsField` | src/components/VideoPlayer.tsx:132 | the padded seconds field has at least two characters, exactly two below 100, and starts with `0` exactly below 10 for non-negative seconds |
| `VideoPlayer.TimeFields` | src/components/VideoPlayer.tsx:130-131 | for t ≥ 0 the minutes ⌊t/60⌋ are non-negative, the seconds ⌊t % 60⌋ lie in [0, 60), and minutes·60 + seconds = ⌊t⌋ |
| `VideoPlayer.FormatTime` | src/components/VideoPlayer.tsx:129-133 | for t ≥ 0 the display is a run of digits, `:`, and exactly two digits; the values are stated by `FormatTimeReadsBack` |
| `VideoPlayer.SecondsFieldTwoDigits` | src/components/VideoPlayer.tsx:132 | for seconds in [0, 60) the field is two digits reading back as the seconds, starting with `0` exactly below 10 |
| `VideoPlayer.FormatTimeReadsBack` | src/components/VideoPlayer.tsx:129-133 | for t ≥ 0 the display satisfies `ShowsTime`: ⌊t/60⌋ in digits without a leading zero, `:`, and two digits below 60 with a leading `0` exactly below 10; minutes·60 + seconds = ⌊t⌋ |
| `VideoPlayer.IsVideoEnded` | src/components/VideoPlayer.tsx:228-231 | a video without a positive length is never ended; one with a positive length is ended exactly when its time is within 0.1 s of its end or past it |
| `VideoPlayer.EndedNeedsLength` | src/components/VideoPlayer.tsx:228-231 | a video of length ≤ 0 is never ended, and an ended video stays ended as the time grows |
| `VideoPlayer.RaiseVolume` | src/components/VideoPlayer.tsx:96 | the up arrow's volume is at most 1 and at most one step above the old volume, never below the old volume, and is either 1 or one step up |
| `VideoPlayer.LowerVolume` | src/components/VideoPlayer.tsx:106 | the down arrow's volume is either 0 or one step down, at least 0, at most one step below and never above the old volume, and is 0 exactly when the old volume was at most one step |
| `VideoPlayer.VolumeStepsUndo` | src/components/VideoPlayer.tsx:93-112 | away from the limits, one press up and one press down cancel out, in either order |
| `VideoPlayer.SkipBackTime` | src/components/VideoPlayer.tsx:154 | skipping back never goes before 0, more than ten seconds back, or past the old time, and is either 0 or ten seconds earlier |
| `VideoPlayer.SkipForwardTime` | src/components/VideoPlayer.tsx:165-168 | skipping forward never passes the length, more than ten seconds ahead, or goes back, and is either the length or ten seconds later |
| `VideoPlayer.SkipsUndo` | src/components/VideoPlayer.tsx:152-171 | away from the ends, a skip back and a skip forward cancel out, in either order |
| `VideoPlayer.Initial` | src/components/VideoPlayer.tsx:7-16 | every one of the fifteen fields starts at its default: not playing, not ended, unmuted, settings closed, speed 1, times and shown length 0, full volume, and the element paused, unmuted, at time 0, rate 1 and full volume with its own length |
| `VideoPlayer.PlayToggled` | src/components/VideoPlayer.tsx:28-37 | with an element, the playing flag flips and the element is paused exactly when not playing; playing an element at its end restarts it from 0, and otherwise its time is kept; nothing else changes, and without an element nothing changes at all |
| `VideoPlayer.MuteToggled` | src/components/VideoPlayer.tsx:69-74 | with an element, only the muted flag flips and the element's muted property follows it; without one, nothing changes |
| `VideoPlayer.VolumeSet` | src/components/VideoPlayer.tsx:76-83 | the volume always becomes the slider value; with an element, so does the element's, and muted holds exactly when the value is 0; nothing else changes |
| `VideoPlayer.VolumeRaised` | src/components/VideoPlayer.tsx:93-102 | with an element, the volume and the element's volume become min(1, v + 0.1) and the player is shown unmuted; nothing else changes |
| `VideoPlayer.VolumeLowered` | src/components/VideoPlayer.tsx:103-112 | with an element, the volume and the element's volume become max(0, v − 0.1), and muted holds exactly when that is 0; nothing else changes |
| `VideoPlayer.SkippedBack` | src/components/VideoPlayer.tsx:152-161 | with an element, its time becomes max(0, t − 10) and the ended flag is cleared; nothing else changes |
| `VideoPlayer.SkippedForward` | src/components/VideoPlayer.tsx:163-171 | with an element, its time becomes min(length, t + 10) and the ended flag is left alone; nothing else changes |
| `VideoPlayer.SpeedChanged` | src/components/VideoPlayer.tsx:173-179 | with an element, the element's rate and the shown speed become the choice and the settings menu closes; nothing else changes |
| `VideoPlayer.SettingsToggled` | src/components/VideoPlayer.tsx:375 | the settings button opens or closes the speed menu and changes nothing else |
| `VideoPlayer.SettingsClosed` | src/components/VideoPlayer.tsx:384-389 | the menu's close button leaves the speed menu hidden and changes nothing else |
| `VideoPlayer.CloseUndoesOpen` | src/components/VideoPlayer.tsx:384-389 | closing the menu undoes opening it with the settings button, and closing twice is closing once |
| `VideoPlayer.EndedChecked` | src/components/VideoPlayer.tsx:233-240 | at the end, playing becomes false and ended true; otherwise an ended flag stays set exactly while the time is within a second of the end; nothing else changes |
| `VideoPlayer.TimeUpdated` | src/components/VideoPlayer.tsx:51-61 | with an element, the shown time becomes the element's time, and the ended flag survives only while the element is at its end |
| `VideoPlayer.MetadataLoaded` | src/components/VideoPlayer.tsx:63-67 | with an element, the shown length becomes the element's length and nothing else changes |
| `VideoPlayer.KeyHandled` | src/components/VideoPlayer.tsx:85-127 | left and right arrows skip back and forward, up and down change the volume, space toggles play, and Escape or any other key leaves the modelled state unchanged |
| `VideoPlayer.KeyKeepsValid` | src/components/VideoPlayer.tsx:85-112 | every key keeps both volumes in [0, 1] and the element's time within [0, length] |
| `VideoPlayer.ApplyKeepsValid` | src/components/VideoPlayer.tsx:28-179 | every handler, with a slider value in [0, 1], keeps the ranges |
| `VideoPlayer.ReplayKeepsValid` | src/components/VideoPlayer.tsx:76-171 | after any sequence of user and element events, the volumes stay in [0, 1] and the element's time within the video |
| `VideoPlayer.EndedCheckSettles` | src/components/VideoPlayer.tsx:233-240 | re-running the ended check on its own result changes nothing, so the effect that depends on `videoEnded` settles after one re-run |
| `VideoPlayer.EndedFlagFollowsEnd` | src/components/VideoPlayer.tsx:233-240 | starting from an ended flag that is unset or agrees with the end, after the check the flag holds exactly when the video is at its end |
| `VideoPlayer.MuteTwice` | src/components/VideoPlayer.tsx:69-74 | with the flag and the element in agreement, muting twice restores the state |
| `VideoPlayer.PlayTwice` | src/components/VideoPlayer.tsx:28-37 | with the flag and the element in agreement and the element not at its end, toggling play twice restores the state |
| `VideoPlayer.VolumeKeysLeaveElementMuted` | src/components/VideoPlayer.tsx:93-102 | after the mute button, the up arrow shows the player unmuted while the element stays muted |
| `VideoPlayer.SkipBackLeavesEnd` | src/components/VideoPlayer.tsx:152-161 | for a video longer than 10 s whose length is shown, skip back, time update and ended check leave it not ended and more than a second from the end |
| `VideoPlayer.Player.constructor` | src/components/VideoPlayer.tsx:7-16 | the component's state and element start as `Initial` describes |
| `VideoPlayer.Player.TogglePlay` | src/components/VideoPlayer.tsx:28-37 | performs exactly `PlayToggled` and keeps the ranges of a valid state |
| `VideoPlayer.Player.ToggleMute` | src/components/VideoPlayer.tsx:69-74 | performs exactly `MuteToggled` and keeps the ranges of a valid state |
| `VideoPlayer.Player.HandleVolumeChange` | src/components/VideoPlayer.tsx:76-83 | performs exactly `VolumeSet` and keeps the ranges |
| `VideoPlayer.Player.VolumeUp` | src/components/VideoPlayer.tsx:93-102 | performs exactly `VolumeRaised` and keeps the ranges |
| `VideoPlayer.Player.VolumeDown` | src/components/VideoPlayer.tsx:103-112 | performs exactly `VolumeLowered` and keeps the ranges |
| `VideoPlayer.Player.SkipBackward` | src/components/VideoPlayer.tsx:152-161 | performs exactly `SkippedBack` and keeps the ranges |
| `VideoPlayer.Player.SkipForward` | src/components/VideoPlayer.tsx:163-171 | performs exactly `SkippedForward` and keeps the ranges |
| `VideoPlayer.Player.ChangePlaybackSpeed` | src/components/VideoPlayer.tsx:173-179 | performs exactly `SpeedChanged` and keeps the ranges of a valid state |
| `VideoPlayer.Player.ToggleSettings` | src/components/VideoPlayer.tsx:375 | performs exactly `SettingsToggled` and keeps the ranges of a valid state |
| `VideoPlayer.Player.CloseSettings` | src/components/VideoPlayer.tsx:384-389 | performs exactly `SettingsClosed` and keeps the ranges of a valid state |
| `VideoPlayer.Player.CheckEnded` | src/components/VideoPlayer.tsx:233-240 | performs exactly `EndedChecked` and keeps the ranges of a valid state |
| `VideoPlayer.Player.HandleTimeUpdate` | src/components/VideoPlayer.tsx:51-61 | performs exactly `TimeUpdated` and keeps the ranges of a valid state |
| `VideoPlayer.Player.HandleLoadedMetadata` | src/components/VideoPlayer.tsx:63-67 | performs exactly `MetadataLoaded` and keeps the ranges of a valid state |
| `VideoPlayer.Player.HandleKeyDown` | src/components/VideoPlayer.tsx:85-127 | performs exactly `KeyHandled` and keeps the ranges |

## Left out

- Canvas drawing (`drawScene`, `drawArrow`, src/pages/FrictionSimulation.tsx:100-264): pixel output only, with nothing to state beyond placement.
- Trigonometry: sin α and cos α are parameters with 0 ≤ sin α and 0 < cos α ≤ 1. `Simulation.SetAngle` does not tie them to the whole-degree angle, so scenario figures that depend on cos 30° (such as 8.49 N) are not checked.
- Floating point: every quantity is an exact real. In the browser the 0.1 volume steps and the 0.1 s cap are binary fractions. `VideoPlayer.VolumeStepsUndo` and "muted exactly at 0" can therefore fail by rounding there.
- Browser scheduling: `requestAnimationFrame`, `cancelAnimationFrame` and `performance.now` (src/pages/FrictionSimulation.tsx:84-98) are not modelled. `Simulation.Animate` takes its timestamp as a parameter and returns whether it asks for another frame. `Simulation.ToggleRunning` takes the current time as a parameter. The effect re-arms after every step and resets the previous-frame time; this is not modelled, so each `Animate` call is one frame on an explicit timestamp.
- Parameter changes while running: the page disables the inputs (src/pages/FrictionSimulation.tsx:423, 445, 461), so `SetSurface`, `SetMass` and `SetAngle` require a stopped simulation.
- Display-only code: the values and formulas panels, the modals and the `toFixed` formatting.
- `handleSeek` (src/components/VideoPlayer.tsx:39-49): it depends on the click's pixel geometry from `getBoundingClientRect`.
- The progress percentage in `handleTimeUpdate` (src/components/VideoPlayer.tsx:53-54): it divides by the element's length and feeds only the progress bar. The rest of the handler is `TimeUpdated`.
- Timers: the controls-visibility timer (181-193), the key-info messages and their timeout (138-150), and the listener registration (195-220).
- KeyHandled: reads the current state for every key, but the window listener (src/components/VideoPlayer.tsx:195-212) is only re-registered when `volume` or `isPlaying` changes, so the source's handler can see a stale `videoEnded`. Example: a 60 s video paused at 55 s, ArrowRight, then ArrowLeft. The ended effect sets `videoEnded` without changing `isPlaying`, so the ArrowLeft handler still sees `false` at line 157 and leaves the flag set until the seek's time update clears it. `SkippedBack` clears it at once. The skip functions are reached only through this listener; the imported skip icons are not wired to any button.
- The Escape key: it calls a `navigate` that is not defined in the component (src/components/VideoPlayer.tsx:122). It changes no modelled state.
- The effect that copies the speed to the element (222-226): it repeats what `changePlaybackSpeed` already does.
- The effect that runs when the video link changes (242-246): it depends on routing and on loading a new source into the element.
- Playback itself: the element advancing its own time, the `play()` promise being rejected, and the length being NaN or infinite are browser behaviour outside the component.
- `VideoPlayer.FormatTimeReadsBack`: states the layout only for t ≥ 0, the times the page displays. `FormatTime` itself follows JavaScript's `Math.floor` and `%` for negative times too. Exponent notation for numbers of 10²¹ or more is not modelled.
- The thumbnail helper (src/components/VideoCard.tsx), the sheet, modal, skeleton, value-row and formula components, routing (src/App.tsx) and the static data (src/constants/constants.ts): asynchronous DOM work or presentation, with no state logic to state.

=== FILE: friction.dfy ===
/**
 * The friction simulator page: a point mass sliding down a straight incline
 * under gravity and Coulomb friction, advanced once per animation frame.
 *
 * All quantities are exact reals. The incline angle enters the physics only
 * through sin α and cos α, which are parameters here.
 */
module FrictionSimulation {
  import opened Util

  /** The five surfaces offered by the control panel. */
  datatype Surface = Ice | Wood | Metal | Rubber | Concrete

  /** Gravitational acceleration, m/s². */
  const Gravity: real := 9.8
  /** Length of the drawn incline, in canvas units. */
  const SurfaceLength: real := 700.0
  /** The run stops this far before the end of the incline. */
  const StopMargin: real := 42.0
  /** Largest time step one frame may integrate over, in seconds. */
  const MaxFrameDelta: real := 0.1
  /** Canvas units travelled per unit of velocity per second. */
  const DistanceScale: real := 50.0

  /** Unclamped position at which a run ends. */
  function StopPosition(): real { SurfaceLength - StopMargin }

  // ---------------------------------------------------------------------
  // Surface table
  // ---------------------------------------------------------------------

  /** The value the surface select box stores for each surface. */
  function SurfaceName(s: Surface): string {
    match s
    case Ice => "лёд"
    case Wood => "дерево"
    case Metal => "металл"
    case Rubber => "резина"
    case Concrete => "бетон"
  }

  /** Looks a select-box value up among the keys of the coefficient table. */
  function ParseSurface(name: string): (r: Option<Surface>)
    ensures r.Some? ==> SurfaceName(r.value) == name
  {
    if name == "лёд" then Some(Ice)
    else if name == "дерево" then Some(Wood)
    else if name == "металл" then Some(Metal)
    else if name == "резина" then Some(Rubber)
    else if name == "бетон" then Some(Concrete)
    else None
  }

  /** Every key of the table is found again under its own surface, and only keys are found. */
  lemma SurfaceNameRoundTrip(s: Surface, name: string)
    ensures ParseSurface(SurfaceName(s)) == Some(s)
    ensures ParseSurface(name) == Some(s) <==> SurfaceName(s) == name
  {
  }

  /** Friction coefficient μ of each surface. */
  function Coefficient(s: Surface): (mu: real)
    ensures 0.0 < mu < 1.0
  {
    match s
    case Ice => 0.05
    case Wood => 0.3
    case Metal => 0.6
    case Rubber => 0.8
    case Concrete => 0.7
  }

  /**
   * `surfaceCoefficients[name]`: the coefficient stored under a select-box
   * value, or nothing for a value that is not a key of the table.
   */
  function CoefficientOf(name: string): (r: Option<real>)
    ensures r.Some? <==> ParseSurface(name).Some?
    ensures r.Some? ==> 0.0 < r.value < 1.0
  {
    match ParseSurface(name)
    case Some(s) => Some(Coefficient(s))
    case None => None
  }

  /** The table itself: each key and its coefficient. */
  lemma SurfaceTable()
    ensures CoefficientOf("лёд") == Some(0.05)
    ensures CoefficientOf("дерево") == Some(0.3)
    ensures CoefficientOf("металл") == Some(0.6)
    ensures CoefficientOf("резина") == Some(0.8)
    ensures CoefficientOf("бетон") == Some(0.7)
    ensures CoefficientOf("") == None
  {
  }

  /** Distinct surfaces have distinct coefficients; ice is the slipperiest, rubber the roughest. */
  lemma CoefficientsDistinct(s: Surface, t: Surface)
    ensures Coefficient(s) == Coefficient(t) <==> s == t
    ensures Coefficient(Ice) <= Coefficient(s) <= Coefficient(Rubber)
  {
  }

  // ---------------------------------------------------------------------
  // Forces
  // ---------------------------------------------------------------------

  /** The derived force and acceleration values shown in the values panel. */
  datatype Forces = Forces(gravity: real, normal: real, friction: real, net: real, acceleration: real)

  /** sin α and cos α of an incline angle α between 0° and 30°. */
  predicate Incline(sinA: real, cosA: real) {
    0.0 <= sinA && 0.0 < cosA <= 1.0
  }

  /** Component of gravity along the incline. */
  function DrivingForce(mass: real, sinA: real): real {
    mass * Gravity * sinA
  }

  /**
   * The force recompute that runs whenever mass, angle or coefficient
   * changes: net force is floored at zero, and so is the acceleration.
   */
  function Recompute(mass: real, sinA: real, cosA: real, mu: real): (f: Forces)
    requires mass > 0.0
    ensures f.net >= 0.0 && f.acceleration >= 0.0
    ensures f.net == Max(DrivingForce(mass, sinA) - f.friction, 0.0)
  {
    var normal := mass * Gravity * cosA;
    var friction := mu * normal;
    var raw := DrivingForce(mass, sinA) - friction;
    Forces(mass * Gravity, normal, friction,
           if raw > 0.0 then raw else 0.0,
           if raw > 0.0 then raw / mass else 0.0)
  }

  /**
   * Weight is m·g, the normal force is its component perpendicular to the
   * incline (so never more than the weight), and friction is μ times it.
   */
  lemma ForceComponents(mass: real, sinA: real, cosA: real, mu: real)
    requires mass > 0.0 && Incline(sinA, cosA) && mu >= 0.0
    ensures var f := Recompute(mass, sinA, cosA, mu);
      f.gravity == mass * Gravity && f.normal == f.gravity * cosA &&
      f.friction == mu * f.normal &&
      0.0 < f.normal <= f.gravity && 0.0 <= f.friction <= mu * f.gravity
  {
    var f := Recompute(mass, sinA, cosA, mu);
    assert f.gravity > 0.0;
    assert f.normal == f.gravity * cosA;
    MulPositiveBelow(f.gravity, cosA);
    MulNonNegBelow(mu, f.normal, f.gravity);
  }

  /** Newton's second law for the stored values: a·m is the stored net force. */
  lemma {:induction false} AccelerationTimesMass(mass: real, sinA: real, cosA: real, mu: real)
    requires mass > 0.0
    ensures var f := Recompute(mass, sinA, cosA, mu); f.acceleration * mass == f.net
  {
    var f := Recompute(mass, sinA, cosA, mu);
    if f.net > 0.0 {
      assert f.acceleration == f.net / mass;
    }
  }

  /**
   * Reference definition: the textbook acceleration g·(sin α − μ cos α),
   * floored at zero. In particular it does not depend on the mass.
   */
  lemma {:induction false} AccelerationFormula(mass: real, sinA: real, cosA: real, mu: real)
    requires mass > 0.0
    ensures Recompute(mass, sinA, cosA, mu).acceleration == Max(Gravity * (sinA - mu * cosA), 0.0)
  {
    var f := Recompute(mass, sinA, cosA, mu);
    var raw := DrivingForce(mass, sinA) - f.friction;
    var ideal := Gravity * (sinA - mu * cosA);
    assert raw == mass * ideal;
    SignOfProduct(mass, ideal);
    if raw > 0.0 {
      assert f.acceleration == raw / mass == ideal;
    }
  }

  /** Changing the mass never changes the acceleration. */
  lemma AccelerationIndependentOfMass(m1: real, m2: real, sinA: real, cosA: real, mu: real)
    requires m1 > 0.0 && m2 > 0.0
    ensures Recompute(m1, sinA, cosA, mu).acceleration == Recompute(m2, sinA, cosA, mu).acceleration
  {
    AccelerationFormula(m1, sinA, cosA, mu);
    AccelerationFormula(m2, sinA, cosA, mu);
  }

  /**
   * The body stays at rest exactly when μ ≥ tan α: then both the stored net
   * force and the acceleration are zero; otherwise both are positive.
   */
  lemma {:induction false} StaticIffFrictionDominates(mass: real, sinA: real, cosA: real, mu: real)
    requires mass > 0.0 && Incline(sinA, cosA)
    ensures var f := Recompute(mass, sinA, cosA, mu);
      (f.net == 0.0 && f.acceleration == 0.0) <==> mu >= sinA / cosA
    ensures var f := Recompute(mass, sinA, cosA, mu);
      (f.net > 0.0 && f.acceleration > 0.0) <==> mu < sinA / cosA
  {
    var f := Recompute(mass, sinA, cosA, mu);
    var ideal := Gravity * (sinA - mu * cosA);
    AccelerationFormula(mass, sinA, cosA, mu);
    AccelerationTimesMass(mass, sinA, cosA, mu);
    TangentCompare(sinA, cosA, mu);
    if mu >= sinA / cosA {
      assert ideal <= 0.0;
      assert f.acceleration == 0.0;
    } else {
      assert ideal > 0.0;
      assert f.acceleration > 0.0;
      MulPositive(f.acceleration, mass);
    }
  }

  /** Friction never adds to the driving force: a ≤ g·sin α. */
  lemma {:induction false} AccelerationBound(mass: real, sinA: real, cosA: real, mu: real)
    requires mass > 0.0 && Incline(sinA, cosA) && mu >= 0.0
    ensures Recompute(mass, sinA, cosA, mu).acceleration <= Gravity * sinA
  {
    AccelerationFormula(mass, sinA, cosA, mu);
    MulNonNeg(mu, cosA);
    assert Gravity * (sinA - mu * cosA) <= Gravity * sinA;
  }

  lemma SignOfProduct(m: real, x: real)
    requires m > 0.0
    ensures m * x > 0.0 <==> x > 0.0
  {
    if x > 0.0 { MulPositive(m, x); }
    else { MulNonNeg(m, -x); }
  }

  lemma TangentCompare(sinA: real, cosA: real, mu: real)
    requires cosA > 0.0
    ensures mu >= sinA / cosA <==> sinA - mu * cosA <= 0.0
  {
    var t := sinA / cosA;
    assert t * cosA == sinA;
    assert sinA - mu * cosA == (t - mu) * cosA;
    SignOfProduct(cosA, t - mu);
  }

  lemma MulPositive(a: real, b: real)
    requires a > 0.0 && b > 0.0
    ensures a * b > 0.0
  {
  }

  lemma MulNonNeg(a: real, b: real)
    requires a >= 0.0 && b >= 0.0
    ensures a * b >= 0.0
  {
  }

  lemma MulPositiveBelow(a: real, c: real)
    requires a > 0.0 && 0.0 < c <= 1.0
    ensures 0.0 < a * c <= a
  {
    MulNonNeg(a, 1.0 - c);
  }

  lemma MulNonNegBelow(mu: real, x: real, y: real)
    requires mu >= 0.0 && 0.0 <= x <= y
    ensures 0.0 <= mu * x <= mu * y
  {
    MulNonNeg(mu, x);
    MulNonNeg(mu, y - x);
  }

  // ---------------------------------------------------------------------
  // One animation frame
  // ---------------------------------------------------------------------

  /** The part of the state an animation frame advances. */
  datatype Motion = Motion(position: real, velocity: real, running: bool)

  /** Seconds since the previous frame, capped so a long gap cannot jump the body. */
  function FrameDelta(timestamp: real, lastTime: real): (dt: real)
    ensures dt <= MaxFrameDelta
    ensures timestamp >= lastTime ==> dt >= 0.0
    ensures timestamp - lastTime <= 1000.0 * MaxFrameDelta ==> dt == (timestamp - lastTime) / 1000.0
    ensures timestamp - lastTime >= 1000.0 * MaxFrameDelta ==> dt == MaxFrameDelta
  {
    Min((timestamp - lastTime) / 1000.0, MaxFrameDelta)
  }

  /** Semi-implicit Euler: the new velocity is used to move the body. */
  function NextVelocity(velocity: real, acceleration: real, dt: real): (v: real)
    ensures acceleration >= 0.0 && dt >= 0.0 ==> v >= velocity
    ensures dt == 0.0 ==> v == velocity
  {
    velocity + acceleration * dt
  }

  /**
   * Where the body would be before clamping to the incline: at least as far
   * as the old velocity alone would carry it over the time step.
   */
  function RawPosition(m: Motion, acceleration: real, dt: real): (raw: real)
    ensures m.velocity >= 0.0 && acceleration >= 0.0 && dt >= 0.0 ==>
      raw >= m.position + m.velocity * dt * DistanceScale
  {
    var v := NextVelocity(m.velocity, acceleration, dt);
    ScaledGain(m.velocity, v, dt);
    m.position + v * dt * DistanceScale
  }

  /** A larger speed covers at least as much scaled distance over the same step. */
  lemma ScaledGain(u: real, v: real, dt: real)
    ensures 0.0 <= u <= v && dt >= 0.0 ==>
      0.0 <= u * dt * DistanceScale <= v * dt * DistanceScale
  {
    if 0.0 <= u <= v && dt >= 0.0 {
      MulNonNeg(u, dt);
      MulNonNeg(v - u, dt);
    }
  }

  /**
   * One call of the frame callback. A stopped simulation is left alone;
   * a running one integrates, clamps the position to the incline, and
   * stops once the unclamped position reaches the stop mark.
   */
  function Step(m: Motion, acceleration: real, dt: real): (r: Motion)
    ensures !m.running ==> r == m
    ensures m.running ==> 0.0 <= r.position <= SurfaceLength
    ensures r.running <==> m.running && RawPosition(m, acceleration, dt) < StopPosition()
  {
    if !m.running then m
    else
      var raw := RawPosition(m, acceleration, dt);
      Motion(Clamp(raw, 0.0, SurfaceLength), NextVelocity(m.velocity, acceleration, dt),
             raw < StopPosition())
  }

  /** Whatever the time step or velocity, a body on the incline stays on it. */
  lemma StepStaysOnSurface(m: Motion, acceleration: real, dt: real)
    requires 0.0 <= m.position <= SurfaceLength
    ensures 0.0 <= Step(m, acceleration, dt).position <= SurfaceLength
  {
  }

  /**
   * The stop test on the unclamped position agrees with the same test on the
   * stored, clamped position, because the stop mark lies inside the incline.
   */
  lemma StopTestOnClampedPosition(m: Motion, acceleration: real, dt: real)
    requires m.running
    ensures !Step(m, acceleration, dt).running <==>
      Step(m, acceleration, dt).position >= StopPosition()
  {
  }

  /**
   * With a non-negative time step, acceleration and velocity, a step never
   * slows the body down and never moves it back up the incline.
   */
  lemma {:induction false} StepMonotone(m: Motion, acceleration: real, dt: real)
    requires 0.0 <= m.position <= SurfaceLength && m.velocity >= 0.0
    requires acceleration >= 0.0 && dt >= 0.0
    ensures var r := Step(m, acceleration, dt);
      r.velocity >= m.velocity && r.position >= m.position
  {
    if m.running {
      MulNonNeg(acceleration, dt);
      var v := NextVelocity(m.velocity, acceleration, dt);
      MulNonNeg(v, dt);
      MulNonNeg(v * dt, DistanceScale);
      assert RawPosition(m, acceleration, dt) >= m.position;
    }
  }

  /**
   * A step that keeps running moved the body by at least v·d·50 when the
   * time step is at least d, and left it short of the stop mark.
   */
  lemma {:induction false} StepProgress(m: Motion, acceleration: real, dt: real, d: real)
    requires 0.0 <= m.position <= SurfaceLength && m.velocity >= 0.0
    requires acceleration >= 0.0 && 0.0 <= d <= dt
    ensures var r := Step(m, acceleration, dt);
      r.running ==> r.position >= m.position + m.velocity * d * DistanceScale &&
                    r.position < StopPosition()
  {
    var r := Step(m, acceleration, dt);
    if r.running {
      MulNonNeg(acceleration, dt);
      var v := NextVelocity(m.velocity, acceleration, dt);
      assert v >= m.velocity;
      MulNonNeg(v - m.velocity, dt);
      MulNonNeg(m.velocity, dt - d);
      assert v * dt >= m.velocity * d;
      MulNonNeg(v * dt - m.velocity * d, DistanceScale);
      assert RawPosition(m, acceleration, dt) >= m.position + m.velocity * d * DistanceScale;
    }
  }

  // ---------------------------------------------------------------------
  // A sequence of frames
  // ---------------------------------------------------------------------

  /** The state after one frame per time step in `dts`, in order. */
  function Run(m: Motion, acceleration: real, dts: seq<real>): Motion
    decreases |dts|
  {
    if |dts| == 0 then m else Run(Step(m, acceleration, dts[0]), acceleration, dts[1..])
  }

  /** A stopped simulation stays exactly where it is, however many frames fire. */
  lemma {:induction false} RunWhenStopped(m: Motion, acceleration: real, dts: seq<real>)
    requires !m.running
    ensures Run(m, acceleration, dts) == m
    decreases |dts|
  {
    if |dts| > 0 {
      RunWhenStopped(Step(m, acceleration, dts[0]), acceleration, dts[1..]);
    }
  }

  /**
   * Over any number of frames with non-negative time steps the body stays on
   * the incline, never slows and never moves back.
   */
  lemma {:induction false} RunMonotone(m: Motion, acceleration: real, dts: seq<real>)
    requires 0.0 <= m.position <= SurfaceLength && m.velocity >= 0.0 && acceleration >= 0.0
    requires forall i :: 0 <= i < |dts| ==> dts[i] >= 0.0
    ensures var r := Run(m, acceleration, dts);
      0.0 <= r.position <= SurfaceLength && r.position >= m.position && r.velocity >= m.velocity
    decreases |dts|
  {
    if |dts| > 0 {
      var next := Step(m, acceleration, dts[0]);
      StepStaysOnSurface(m, acceleration, dts[0]);
      StepMonotone(m, acceleration, dts[0]);
      RunMonotone(next, acceleration, dts[1..]);
    }
  }

  /**
   * While a run continues, each frame of at least d seconds moved the body
   * by at least g, for any g up to w·d·50 where w is a speed the body
   * already has; the frames together moved it by g added once per frame.
   */
  lemma {:induction false} RunProgress(m: Motion, acceleration: real, dts: seq<real>, d: real, w: real, g: real)
    requires 0.0 <= m.position <= SurfaceLength && 0.0 <= w <= m.velocity && acceleration >= 0.0
    requires d >= 0.0 && forall i :: 0 <= i < |dts| ==> dts[i] >= d
    requires 0.0 <= g <= w * d * DistanceScale
    ensures var r := Run(m, acceleration, dts);
      r.running ==> r.position >= m.position + Repeat(|dts|, g)
    decreases |dts|
  {
    if |dts| > 0 {
      var next := Step(m, acceleration, dts[0]);
      var rest := dts[1..];
      StepsAtLeast(dts, d);
      var r := Run(next, acceleration, rest);
      assert Run(m, acceleration, dts) == r;
      if next.running {
        FirstFrame(m, acceleration, dts[0], d, w, g);
        RunProgress(next, acceleration, rest, d, w, g);
      } else {
        RunWhenStopped(next, acceleration, rest);
      }
    }
  }

  lemma StepsAtLeast(dts: seq<real>, d: real)
    requires |dts| > 0 && forall i :: 0 <= i < |dts| ==> dts[i] >= d
    ensures dts[0] >= d && forall i :: 0 <= i < |dts[1..]| ==> dts[1..][i] >= d
  {
    assert forall i :: 0 <= i < |dts[1..]| ==> dts[1..][i] == dts[i + 1];
  }

  /** The distance covered by n frames that each gain g: g added n times. */
  function Repeat(n: nat, g: real): real
    decreases n
  {
    if n == 0 then 0.0 else Repeat(n - 1, g) + g
  }

  lemma {:induction false} RepeatIsProduct(n: nat, g: real)
    ensures Repeat(n, g) == (n as real) * g
    decreases n
  {
    if n > 0 {
      RepeatIsProduct(n - 1, g);
      assert (n as real) * g == ((n - 1) as real) * g + g;
    }
  }

  lemma Associate(k: real, v: real, d: real)
    ensures k * (v * d * DistanceScale) == k * v * d * DistanceScale
  {
  }

  /**
   * What a continuing frame of at least d seconds guarantees to a body moving
   * at least at speed w: it keeps that speed and gains any g up to w·d·50.
   */
  lemma FirstFrame(m: Motion, acceleration: real, dt: real, d: real, w: real, g: real)
    requires 0.0 <= m.position <= SurfaceLength && 0.0 <= w <= m.velocity
    requires acceleration >= 0.0 && 0.0 <= d <= dt
    requires 0.0 <= g <= w * d * DistanceScale
    ensures var next := Step(m, acceleration, dt);
      next.running ==>
        0.0 <= next.position <= SurfaceLength && w <= next.velocity &&
        next.position >= m.position + g
  {
    StepStaysOnSurface(m, acceleration, dt);
    StepMonotone(m, acceleration, dt);
    StepProgress(m, acceleration, dt, d);
    ScaledGain(w, m.velocity, d);
    assert g <= m.velocity * d * DistanceScale;
  }

  /** A run that continued after at least one frame is short of the stop mark. */
  lemma {:induction false} RunningBeforeStopMark(m: Motion, acceleration: real, dts: seq<real>)
    requires |dts| > 0 && Run(m, acceleration, dts).running
    ensures Run(m, acceleration, dts).position < StopPosition()
    decreases |dts|
  {
    var next := Step(m, acceleration, dts[0]);
    if !next.running {
      RunWhenStopped(next, acceleration, dts[1..]);
    } else if |dts| > 1 {
      RunningBeforeStopMark(next, acceleration, dts[1..]);
    }
  }

  /**
   * Termination: once enough frames of at least d seconds have fired that
   * the body, moving at its starting speed, would have covered the distance
   * to the stop mark, the run has stopped.
   */
  lemma RunStops(m: Motion, acceleration: real, dts: seq<real>, d: real)
    requires 0.0 <= m.position <= SurfaceLength && m.velocity >= 0.0 && acceleration >= 0.0
    requires d >= 0.0 && forall i :: 0 <= i < |dts| ==> dts[i] >= d
    requires |dts| > 0
    requires m.position + (|dts| as real) * m.velocity * d * DistanceScale >= StopPosition()
    ensures !Run(m, acceleration, dts).running
  {
    var g := m.velocity * d * DistanceScale;
    Associate(|dts| as real, m.velocity, d);
    RepeatIsProduct(|dts|, g);
    RunStopsAfterGain(m, acceleration, dts, d, g);
  }

  /** RunStops stated with the per-frame gain g and its repeated sum. */
  lemma RunStopsAfterGain(m: Motion, acceleration: real, dts: seq<real>, d: real, g: real)
    requires 0.0 <= m.position <= SurfaceLength && m.velocity >= 0.0 && acceleration >= 0.0
    requires d >= 0.0 && forall i :: 0 <= i < |dts| ==> dts[i] >= d
    requires |dts| > 0 && 0.0 <= g <= m.velocity * d * DistanceScale
    requires m.position + Repeat(|dts|, g) >= StopPosition()
    ensures !Run(m, acceleration, dts).running
  {
    RunProgress(m, acceleration, dts, d, m.velocity, g);
    if Run(m, acceleration, dts).running {
      RunningBeforeStopMark(m, acceleration, dts);
    }
  }

  /**
   * A body that starts at rest on an incline where it can slide
   * (acceleration > 0) reaches the stop mark: after the first frame it moves
   * at least a·d, so 1 + ⌈658 / (50·a·d²)⌉ frames of at least d seconds suffice.
   */
  lemma {:induction false} RunFromRestStops(acceleration: real, dts: seq<real>, d: real)
    requires acceleration > 0.0 && 0.0 < d
    requires forall i :: 0 <= i < |dts| ==> dts[i] >= d
    requires |dts| > 1
    requires ((|dts| - 1) as real) * (acceleration * d) * d * DistanceScale >= StopPosition()
    ensures !Run(Motion(0.0, 0.0, true), acceleration, dts).running
  {
    var m := Motion(0.0, 0.0, true);
    var first := Step(m, acceleration, dts[0]);
    var rest := dts[1..];
    assert Run(m, acceleration, dts) == Run(first, acceleration, rest);
    StepsAtLeast(dts, d);
    FirstFrameFromRest(acceleration, dts[0], d);
    assert |rest| as real == (|dts| - 1) as real;
    RunStopsAtRate(first, acceleration, rest, d, acceleration * d);
  }

  /**
   * RunStops for a body that already moves at least at speed w: enough
   * frames to cover the distance to the stop mark at speed w suffice.
   */
  lemma RunStopsAtRate(m: Motion, acceleration: real, dts: seq<real>, d: real, w: real)
    requires 0.0 <= m.position <= SurfaceLength && 0.0 <= w <= m.velocity && acceleration >= 0.0
    requires d >= 0.0 && forall i :: 0 <= i < |dts| ==> dts[i] >= d
    requires |dts| > 0
    requires (|dts| as real) * w * d * DistanceScale >= StopPosition()
    ensures !Run(m, acceleration, dts).running
  {
    ScaleRate(|dts| as real, w, m.velocity, d, StopPosition() - m.position);
    RunStops(m, acceleration, dts, d);
  }

  /** The first frame from rest leaves the body on the incline moving at least a·d. */
  lemma FirstFrameFromRest(acceleration: real, dt: real, d: real)
    requires acceleration > 0.0 && 0.0 < d <= dt
    ensures var first := Step(Motion(0.0, 0.0, true), acceleration, dt);
      0.0 <= first.position <= SurfaceLength && first.velocity >= acceleration * d
  {
    MulNonNegBelow(acceleration, d, dt);
  }

  /** A distance reached at speed w over k frames of d seconds is reached at any faster speed v. */
  lemma ScaleRate(k: real, w: real, v: real, d: real, distance: real)
    requires k >= 0.0 && w <= v && d >= 0.0
    requires k * w * d * DistanceScale >= distance
    ensures k * v * d * DistanceScale >= distance
  {
    MulNonNeg(k * d * DistanceScale, v - w);
    assert k * v * d * DistanceScale - k * w * d * DistanceScale == k * d * DistanceScale * (v - w);
  }

  // ---------------------------------------------------------------------
  // The page's simulation state
  // ---------------------------------------------------------------------

  /** The simulation state the page keeps and updates in place. */
  class Simulation {
    var surface: Surface
    var frictionCoefficient: real
    var mass: real
    /** Incline angle in whole degrees, as chosen on the slider. */
    var angle: int
    /** sin and cos of `angle`. */
    var sinAngle: real
    var cosAngle: real
    var gravityForce: real
    var normalForce: real
    var frictionForce: real
    var netForce: real
    var acceleration: real
    var position: real
    var velocity: real
    var isRunning: bool
    /** Timestamp of the previous frame, in milliseconds. */
    var lastTime: real

    /** The derived values agree with the parameters, and the body is on the incline. */
    ghost predicate Valid()
      reads this
    {
      frictionCoefficient == Coefficient(surface) &&
      0.1 <= mass <= 10.0 && 0 <= angle <= 30 && Incline(sinAngle, cosAngle) &&
      Forces(gravityForce, normalForce, frictionForce, netForce, acceleration)
        == Recompute(mass, sinAngle, cosAngle, frictionCoefficient) &&
      0.0 <= position <= SurfaceLength
    }

    function CurrentForces(): Forces
      reads this
    {
      Forces(gravityForce, normalForce, frictionForce, netForce, acceleration)
    }

    function CurrentMotion(): Motion
      reads this
    {
      Motion(position, velocity, isRunning)
    }

    /** The page as mounted: wood, 1 kg, flat incline, at rest, forces already recomputed. */
    constructor ()
      ensures Valid()
      ensures surface == Wood && mass == 1.0 && angle == 0
      ensures CurrentMotion() == Motion(0.0, 0.0, false)
      ensures netForce == 0.0 && acceleration == 0.0
    {
      surface := Wood;
      frictionCoefficient := Coefficient(Wood);
      mass := 1.0;
      angle := 0;
      sinAngle := 0.0;
      cosAngle := 1.0;
      var f := Recompute(1.0, 0.0, 1.0, Coefficient(Wood));
      gravityForce, normalForce, frictionForce, netForce, acceleration :=
        f.gravity, f.normal, f.friction, f.net, f.acceleration;
      position := 0.0;
      velocity := 0.0;
      isRunning := false;
      lastTime := 0.0;
    }

    /** Stores the forces for the current parameters. */
    method RecomputeForces()
      requires 0.1 <= mass
      modifies this`gravityForce, this`normalForce, this`frictionForce, this`netForce, this`acceleration
      ensures CurrentForces() == Recompute(mass, sinAngle, cosAngle, frictionCoefficient)
    {
      var f := Recompute(mass, sinAngle, cosAngle, frictionCoefficient);
      gravityForce, normalForce, frictionForce, netForce, acceleration :=
        f.gravity, f.normal, f.friction, f.net, f.acceleration;
    }

    /** Choosing a surface (only possible while stopped) sets μ and recomputes the forces. */
    method SetSurface(s: Surface)
      requires Valid() && !isRunning
      modifies this
      ensures Valid()
      ensures surface == s && frictionCoefficient == Coefficient(s)
      ensures CurrentForces() == Recompute(mass, sinAngle, cosAngle, Coefficient(s))
      ensures mass == old(mass) && angle == old(angle)
      ensures sinAngle == old(sinAngle) && cosAngle == old(cosAngle)
      ensures CurrentMotion() == old(CurrentMotion()) && lastTime == old(lastTime)
    {
      surface := s;
      frictionCoefficient := Coefficient(s);
      RecomputeForces();
    }

    /** Moving the mass slider (only possible while stopped) recomputes the forces. */
    method SetMass(m: real)
      requires Valid() && !isRunning
      requires 0.1 <= m <= 10.0
      modifies this
      ensures Valid()
      ensures mass == m
      ensures CurrentForces() == Recompute(m, sinAngle, cosAngle, frictionCoefficient)
      ensures acceleration == old(acceleration)
      ensures surface == old(surface) && frictionCoefficient == old(frictionCoefficient)
      ensures angle == old(angle) && sinAngle == old(sinAngle) && cosAngle == old(cosAngle)
      ensures CurrentMotion() == old(CurrentMotion()) && lastTime == old(lastTime)
    {
      AccelerationIndependentOfMass(mass, m, sinAngle, cosAngle, frictionCoefficient);
      mass := m;
      RecomputeForces();
    }

    /** Moving the angle slider (only possible while stopped) recomputes the forces. */
    method SetAngle(degrees: int, sinA: real, cosA: real)
      requires Valid() && !isRunning
      requires 0 <= degrees <= 30 && Incline(sinA, cosA)
      modifies this
      ensures Valid()
      ensures angle == degrees && sinAngle == sinA && cosAngle == cosA
      ensures CurrentForces() == Recompute(mass, sinA, cosA, frictionCoefficient)
      ensures surface == old(surface) && frictionCoefficient == old(frictionCoefficient)
      ensures mass == old(mass)
      ensures CurrentMotion() == old(CurrentMotion()) && lastTime == old(lastTime)
    {
      angle := degrees;
      sinAngle := sinA;
      cosAngle := cosA;
      RecomputeForces();
    }

    /**
     * The start/pause button. Starting takes `now` as the reference time for
     * the first frame's time step.
     */
    method ToggleRunning(now: real)
      requires Valid()
      modifies this`isRunning, this`lastTime
      ensures Valid()
      ensures isRunning == !old(isRunning)
      ensures lastTime == if isRunning then now else old(lastTime)
    {
      isRunning := !isRunning;
      if isRunning {
        lastTime := now;
      }
    }

    /**
     * The frame callback at `timestamp` (milliseconds). Returns whether it
     * asked for another frame.
     */
    method Animate(timestamp: real) returns (scheduled: bool)
      requires Valid()
      modifies this`position, this`velocity, this`isRunning, this`lastTime
      ensures Valid()
      ensures !old(isRunning) ==> unchanged(this) && !scheduled
      ensures old(isRunning) ==> lastTime == timestamp
      ensures CurrentMotion() == Step(old(CurrentMotion()), acceleration, FrameDelta(timestamp, old(lastTime)))
      ensures scheduled <==> (old(isRunning) &&
        RawPosition(old(CurrentMotion()), acceleration, FrameDelta(timestamp, old(lastTime))) < StopPosition())
      ensures scheduled == isRunning
    {
      if !isRunning {
        return false;
      }
      ghost var m := CurrentMotion();
      var dt := FrameDelta(timestamp, lastTime);
      lastTime := timestamp;
      var newVelocity := velocity + acceleration * dt;
      assert newVelocity == NextVelocity(m.velocity, acceleration, dt);
      velocity := newVelocity;
      var newPosition := position + newVelocity * dt * DistanceScale;
      assert newPosition == RawPosition(m, acceleration, dt);
      position := Min(Max(newPosition, 0.0), SurfaceLength);
      if newPosition >= SurfaceLength - StopMargin {
        isRunning := false;
        return false;
      }
      scheduled := true;
    }

    /** The reset button: back to the top of the incline, at rest, stopped. */
    method Reset()
      requires Valid()
      modifies this`position, this`velocity, this`isRunning
      ensures Valid()
      ensures CurrentMotion() == Motion(0.0, 0.0, false)
    {
      isRunning := false;
      position := 0.0;
      velocity := 0.0;
    }
  }
}

=== FILE: util.dfy ===
/** Small shared vocabulary: an optional value and the clamping helpers both pages use. */
module Util {

  datatype Option<T> = None | Some(value: T)

  /** `Math.min` on two numbers. */
  function Min(a: real, b: real): (r: real)
    ensures r <= a && r <= b
    ensures r == a || r == b
  {
    if a <= b then a else b
  }

  /** `Math.max` on two numbers. */
  function Max(a: real, b: real): (r: real)
    ensures r >= a && r >= b
    ensures r == a || r == b
  {
    if a >= b then a else b
  }

  /** `Math.min(Math.max(x, lo), hi)`: x pulled into [lo, hi]. */
  function Clamp(x: real, lo: real, hi: real): (r: real)
    requires lo <= hi
    ensures lo <= r <= hi
    ensures lo <= x <= hi ==> r == x
    ensures x < lo ==> r == lo
    ensures x > hi ==> r == hi
  {
    Min(Max(x, lo), hi)
  }
}

=== FILE: video_player.dfy ===
/**
 * The video player page: the time display, the "has the video ended" rule,
 * and the control handlers, which update both the page's own state and the
 * `<video>` element it drives.
 */
module VideoPlayer {
  import opened Util

  /** A video counts as ended within this many seconds of its end. */
  const EndThreshold: real := 0.1
  /** An ended flag is only cleared once playback is this far from the end. */
  const RewindMargin: real := 1.0
  /** Seconds jumped by the skip buttons and the left/right arrow keys. */
  const SkipSeconds: real := 10.0
  /** Volume change of one up/down arrow key press. */
  const VolumeStep: real := 0.1

  // ---------------------------------------------------------------------
  // Time display
  // ---------------------------------------------------------------------

  /** JavaScript's truncation of a number toward zero. */
  function Trunc(x: real): (n: int)
    ensures x >= 0.0 ==> n == x.Floor
    ensures x < 0.0 ==> n == -((-x).Floor)
  {
    if x >= 0.0 then x.Floor else -((-x).Floor)
  }

  /** JavaScript's `x % y` for y > 0: the remainder carries the sign of x. */
  function JsRemainder(x: real, y: real): (r: real)
    requires y > 0.0
    ensures x >= 0.0 ==> 0.0 <= r < y && r == x - y * ((x / y).Floor as real)
  {
    FloorDivision(x, y);
    x - y * (Trunc(x / y) as real)
  }

  lemma FloorDivision(x: real, y: real)
    requires y > 0.0
    ensures y * ((x / y).Floor as real) <= x < y * ((x / y).Floor as real) + y
  {
    var t := x / y;
    var q := t.Floor as real;
    assert q <= t < q + 1.0;
    DivisionTimes(x, y);
    assert y * t == x;
    ScaleBelow(q, t, y);
    assert y * q <= x;
    ScaleStrictlyBelow(t, q + 1.0, y);
    assert y * (q + 1.0) == y * q + y;
    assert x < y * q + y;
  }

  lemma DivisionTimes(x: real, y: real)
    requires y > 0.0
    ensures y * (x / y) == x
  {
  }

  lemma ScaleBelow(a: real, b: real, y: real)
    requires a <= b && y > 0.0
    ensures y * a <= y * b
  {
    assert y * b - y * a == y * (b - a);
  }

  lemma ScaleStrictlyBelow(a: real, b: real, y: real)
    requires a < b && y > 0.0
    ensures y * a < y * b
  {
    assert y * b - y * a == y * (b - a);
  }

  predicate IsDigit(c: char) {
    '0' <= c <= '9'
  }

  predicate AllDigits(s: string) {
    forall i :: 0 <= i < |s| ==> IsDigit(s[i])
  }

  function DigitChar(d: nat): (c: char)
    requires d < 10
    ensures IsDigit(c)
  {
    ('0' as int + d) as char
  }

  function DigitValue(c: char): (d: nat)
    requires IsDigit(c)
    ensures d < 10 && DigitChar(d) == c
  {
    c as int - '0' as int
  }

  /** `${n}` for a non-negative integer: its decimal digits, no leading zeros. */
  function DecimalString(n: nat): (s: string)
    ensures 1 <= |s| && AllDigits(s)
    ensures n < 10 <==> |s| == 1
    ensures s[0] == '0' <==> n == 0
    decreases n
  {
    if n < 10 then [DigitChar(n)] else DecimalString(n / 10) + [DigitChar(n % 10)]
  }

  /** The number a string of decimal digits denotes. */
  function DigitsValue(s: string): nat
    requires AllDigits(s)
    decreases |s|
  {
    if |s| == 0 then 0 else DigitsValue(s[..|s| - 1]) * 10 + DigitValue(s[|s| - 1])
  }

  /** Reading back the digits of n gives n. */
  lemma {:induction false} DecimalRoundTrip(n: nat)
    ensures DigitsValue(DecimalString(n)) == n
    decreases n
  {
    var s := DecimalString(n);
    if n >= 10 {
      DecimalRoundTrip(n / 10);
      assert s[..|s| - 1] == DecimalString(n / 10);
      assert DigitValue(s[|s| - 1]) == n % 10;
    } else {
      assert s[..0] == [];
    }
  }

  /**
   * `${i}` for any integer: the digits of |i| without leading zeros, after a
   * minus sign when i is negative.
   */
  function IntString(i: int): (s: string)
    ensures i >= 0 ==>
      |s| >= 1 && AllDigits(s) && DigitsValue(s) == i && (|s| == 1 || s[0] != '0')
    ensures i < 0 ==>
      |s| >= 2 && s[0] == '-' && AllDigits(s[1..]) && DigitsValue(s[1..]) == -i
  {
    var magnitude := if i < 0 then -i else i;
    DecimalRoundTrip(magnitude);
    var digits := DecimalString(magnitude);
    if i < 0 then
      var s := "-" + digits;
      assert s[1..] == digits;
      s
    else
      digits
  }

  /** The seconds field: the number, with a `0` in front when it is below 10. */
  function SecondsField(n: int): (f: string)
    ensures |f| >= 2
    ensures 0 <= n < 100 ==> |f| == 2
    ensures n >= 0 ==> (f[0] == '0' <==> n < 10)
  {
    (if n < 10 then "0" else "") + IntString(n)
  }

  /**
   * For t ≥ 0 the two numbers `formatTime` shows: the minutes ⌊t/60⌋ and the
   * seconds ⌊t % 60⌋, below 60, which together make up ⌊t⌋.
   */
  lemma TimeFields(t: real)
    requires t >= 0.0
    ensures var minutes := (t / 60.0).Floor;
      var seconds := JsRemainder(t, 60.0).Floor;
      minutes >= 0 && 0 <= seconds < 60 && minutes * 60 + seconds == t.Floor
  {
    var q := (t / 60.0).Floor;
    FloorDivision(t, 60.0);
    assert q >= 0;
    var rem := JsRemainder(t, 60.0);
    assert rem == t + (-60 * q) as real;
    FloorShift(t, -60 * q);
  }

  /**
   * `formatTime`: seconds shown as minutes, a colon and the seconds field.
   * For t ≥ 0 that is a run of digits, `:`, and exactly two digits.
   */
  function FormatTime(t: real): (s: string)
    ensures t >= 0.0 ==>
      |s| >= 4 && s[|s| - 3] == ':' && AllDigits(s[..|s| - 3]) && AllDigits(s[|s| - 2..])
  {
    var minutes := (t / 60.0).Floor;
    var seconds := JsRemainder(t, 60.0).Floor;
    var m := IntString(minutes);
    var f := SecondsField(seconds);
    var s := m + ":" + f;
    if t >= 0.0 then
      TimeFields(t);
      Layout(m, f);
      s
    else
      s
  }

  /** For 0 ≤ n < 60 the seconds field is exactly two digits that read back as n. */
  lemma SecondsFieldTwoDigits(n: int)
    requires 0 <= n < 60
    ensures var f := SecondsField(n);
      |f| == 2 && AllDigits(f) && DigitsValue(f) == n && (f[0] == '0' <==> n < 10)
  {
    var f := SecondsField(n);
    if n < 10 {
      assert f == ['0', DigitChar(n)];
      assert f[..1] == ['0'];
      assert f[..1][..0] == [];
      assert DigitsValue(f[..1]) == 0;
      assert DigitValue(f[1]) == n;
    } else {
      assert DecimalString(n / 10) == [DigitChar(n / 10)];
      assert f == [DigitChar(n / 10), DigitChar(n % 10)];
      assert f[..1] == [DigitChar(n / 10)];
      assert f[..1][..0] == [];
      assert DigitValue(f[0]) == n / 10;
      assert DigitValue(f[1]) == n % 10;
      assert DigitsValue(f[..1]) == n / 10;
    }
  }

  /** ⌊x + k⌋ = ⌊x⌋ + k for an integer k. */
  lemma FloorShift(x: real, k: int)
    ensures (x + k as real).Floor == x.Floor + k
  {
  }

  /**
   * The display s shows the time t as `<minutes>:<ss>`: the minutes are
   * ⌊t/60⌋ without leading zeros, the seconds field is two digits below 60
   * that start with `0` exactly when the seconds are below 10, and together
   * they read back as the whole number of seconds ⌊t⌋.
   */
  predicate ShowsTime(s: string, t: real) {
    |s| >= 4 && s[|s| - 3] == ':' &&
    AllDigits(s[..|s| - 3]) && AllDigits(s[|s| - 2..]) &&
    DigitsValue(s[..|s| - 3]) == (t / 60.0).Floor &&
    (s[0] != '0' || |s| == 4) &&
    DigitsValue(s[|s| - 2..]) < 60 &&
    (s[|s| - 2] == '0' <==> DigitsValue(s[|s| - 2..]) < 10) &&
    DigitsValue(s[..|s| - 3]) * 60 + DigitsValue(s[|s| - 2..]) == t.Floor
  }

  /** For a non-negative time, `formatTime` shows that time. */
  lemma FormatTimeReadsBack(t: real)
    requires t >= 0.0
    ensures ShowsTime(FormatTime(t), t)
  {
    var minutes := (t / 60.0).Floor;
    var seconds := JsRemainder(t, 60.0).Floor;
    TimeFields(t);
    SecondsFieldTwoDigits(seconds);
    Layout(IntString(minutes), SecondsField(seconds));
  }

  /** Where the two fields sit in `<m>:<f>` when the seconds field has two characters. */
  lemma Layout(m: string, f: string)
    requires |m| >= 1 && |f| == 2
    ensures var s := m + ":" + f;
      |s| == |m| + 3 && s[0] == m[0] && s[|s| - 3] == ':' &&
      s[..|s| - 3] == m && s[|s| - 2..] == f
  {
  }

  // ---------------------------------------------------------------------
  // End of video
  // ---------------------------------------------------------------------

  /** `isVideoEnded`: within the threshold of the end of a video that has a length. */
  function IsVideoEnded(current: real, total: real): (ended: bool)
    ensures total <= 0.0 ==> !ended
    ensures total > 0.0 && current >= total - EndThreshold ==> ended
    ensures current < total - EndThreshold ==> !ended
  {
    current >= total - EndThreshold && total > 0.0
  }

  /**
   * A video without a positive length never counts as ended, and an ended
   * video stays ended as the time moves on.
   */
  lemma EndedNeedsLength(current: real, later: real, total: real)
    ensures total <= 0.0 ==> !IsVideoEnded(current, total)
    ensures IsVideoEnded(current, total) && current <= later ==> IsVideoEnded(later, total)
  {
  }

  // ---------------------------------------------------------------------
  // Volume and seeking arithmetic
  // ---------------------------------------------------------------------

  /** Volume after the up arrow: one step louder, at most full volume. */
  function RaiseVolume(v: real): (r: real)
    ensures r <= 1.0 && (v <= 1.0 ==> v <= r)
    ensures r == 1.0 || r == v + VolumeStep
    ensures r <= v + VolumeStep
  {
    Min(1.0, v + VolumeStep)
  }

  /** Volume after the down arrow: one step quieter, at least silence. */
  function LowerVolume(v: real): (r: real)
    ensures r >= 0.0 && (v >= 0.0 ==> r <= v)
    ensures r == 0.0 <==> v <= VolumeStep
    ensures r >= v - VolumeStep
    ensures r == 0.0 || r == v - VolumeStep
  {
    Max(0.0, v - VolumeStep)
  }

  /** One press up and one press down undo each other away from the limits. */
  lemma VolumeStepsUndo(v: real)
    ensures 0.0 <= v <= 1.0 - VolumeStep ==> LowerVolume(RaiseVolume(v)) == v
    ensures VolumeStep <= v <= 1.0 ==> RaiseVolume(LowerVolume(v)) == v
  {
  }

  /** Time after skipping back: ten seconds earlier, not before the start. */
  function SkipBackTime(t: real): (r: real)
    ensures r >= 0.0 && (t >= 0.0 ==> r <= t)
    ensures r == 0.0 || r == t - SkipSeconds
    ensures r >= t - SkipSeconds
  {
    Max(0.0, t - SkipSeconds)
  }

  /** Time after skipping forward: ten seconds later, not past the end. */
  function SkipForwardTime(t: real, total: real): (r: real)
    ensures r <= total && (t <= total ==> t <= r)
    ensures r == total || r == t + SkipSeconds
    ensures r <= t + SkipSeconds
  {
    Min(total, t + SkipSeconds)
  }

  /** Skipping back then forward (or forward then back) returns to the same time away from the ends. */
  lemma SkipsUndo(t: real, total: real)
    ensures SkipSeconds <= t <= total ==> SkipForwardTime(SkipBackTime(t), total) == t
    ensures 0.0 <= t && t + SkipSeconds <= total ==> SkipBackTime(SkipForwardTime(t, total)) == t
  {
  }

  // ---------------------------------------------------------------------
  // Player state and its transitions
  // ---------------------------------------------------------------------

  /**
   * Everything the handlers read and write: the page's state and, under the
   * `media` names, the properties of the `<video>` element. `hasVideo` says
   * whether the element is mounted.
   */
  datatype PlayerState = PlayerState(
    hasVideo: bool,
    isPlaying: bool,
    currentTime: real,
    duration: real,
    volume: real,
    isMuted: bool,
    showSettings: bool,
    playbackSpeed: real,
    videoEnded: bool,
    mediaTime: real,
    mediaDuration: real,
    mediaVolume: real,
    mediaMuted: bool,
    mediaPaused: bool,
    playbackRate: real)

  /** The ranges every handler keeps: volumes in [0, 1], the element's time within the video. */
  predicate Valid(s: PlayerState) {
    0.0 <= s.volume <= 1.0 && 0.0 <= s.mediaVolume <= 1.0 &&
    0.0 <= s.mediaTime <= s.mediaDuration &&
    0.0 <= s.currentTime && 0.0 <= s.duration
  }

  /** The page as mounted over an element holding a video of the given length. */
  function Initial(hasVideo: bool, mediaDuration: real): (s: PlayerState)
    requires mediaDuration >= 0.0
    ensures Valid(s) && !s.isPlaying && !s.videoEnded && s.volume == 1.0
    ensures !s.isMuted && !s.showSettings && s.playbackSpeed == 1.0
    ensures s.currentTime == 0.0 && s.duration == 0.0
    ensures s.mediaTime == 0.0 && s.mediaDuration == mediaDuration && s.mediaVolume == 1.0
    ensures !s.mediaMuted && s.mediaPaused && s.playbackRate == 1.0 && s.hasVideo == hasVideo
  {
    PlayerState(hasVideo, false, 0.0, 0.0, 1.0, false, false, 1.0, false,
                0.0, mediaDuration, 1.0, false, true, 1.0)
  }

  /**
   * `togglePlay`: with an element, flips the playing flag and plays or pauses it.
   * An element whose playback has ended starts again from 0 when played, as the
   * media element's play steps say; the "watch again" button relies on this.
   */
  function PlayToggled(s: PlayerState): (r: PlayerState)
    ensures s.hasVideo ==> r.isPlaying == !s.isPlaying && r.mediaPaused == !r.isPlaying
    ensures s.hasVideo && !s.isPlaying && s.mediaTime >= s.mediaDuration ==> r.mediaTime == 0.0
    ensures r.mediaTime != s.mediaTime ==>
      s.hasVideo && !s.isPlaying && s.mediaTime >= s.mediaDuration
    ensures r.(isPlaying := s.isPlaying, mediaPaused := s.mediaPaused, mediaTime := s.mediaTime) == s
    ensures !s.hasVideo ==> r == s
  {
    if !s.hasVideo then s
    else if s.isPlaying then s.(isPlaying := false, mediaPaused := true)
    else
      var time := if s.mediaTime >= s.mediaDuration then 0.0 else s.mediaTime;
      s.(isPlaying := true, mediaPaused := false, mediaTime := time)
  }

  /** `toggleMute`: with an element, flips the muted flag and mutes or unmutes it. */
  function MuteToggled(s: PlayerState): (r: PlayerState)
    ensures s.hasVideo ==> r.isMuted == !s.isMuted && r.mediaMuted == r.isMuted
    ensures r.(isMuted := s.isMuted, mediaMuted := s.mediaMuted) == s
    ensures !s.hasVideo ==> r == s
  {
    if s.hasVideo then s.(isMuted := !s.isMuted, mediaMuted := !s.isMuted) else s
  }

  /** `handleVolumeChange`: the slider's value becomes the volume; silence means muted. */
  function VolumeSet(s: PlayerState, v: real): (r: PlayerState)
    ensures r.volume == v
    ensures s.hasVideo ==> r.mediaVolume == v && (r.isMuted <==> v == 0.0)
    ensures r.(volume := s.volume, mediaVolume := s.mediaVolume, isMuted := s.isMuted) == s
    ensures !s.hasVideo ==> r == s.(volume := v)
  {
    if s.hasVideo then s.(volume := v, mediaVolume := v, isMuted := v == 0.0)
    else s.(volume := v)
  }

  /** The up arrow: with an element, one step louder, and no longer shown as muted. */
  function VolumeRaised(s: PlayerState): (r: PlayerState)
    ensures s.hasVideo ==> r.volume == r.mediaVolume == RaiseVolume(s.volume) && !r.isMuted
    ensures r.(volume := s.volume, mediaVolume := s.mediaVolume, isMuted := s.isMuted) == s
    ensures !s.hasVideo ==> r == s
  {
    if s.hasVideo then
      var v := RaiseVolume(s.volume);
      s.(volume := v, mediaVolume := v, isMuted := false)
    else s
  }

  /** The down arrow: with an element, one step quieter, shown as muted exactly when silent. */
  function VolumeLowered(s: PlayerState): (r: PlayerState)
    ensures s.hasVideo ==>
      r.volume == r.mediaVolume == LowerVolume(s.volume) && (r.isMuted <==> s.volume <= VolumeStep)
    ensures r.(volume := s.volume, mediaVolume := s.mediaVolume, isMuted := s.isMuted) == s
    ensures !s.hasVideo ==> r == s
  {
    if s.hasVideo then
      var v := LowerVolume(s.volume);
      s.(volume := v, mediaVolume := v, isMuted := v == 0.0)
    else s
  }

  /** `skipBackward`: ten seconds back on the element, and the video no longer counts as ended. */
  function SkippedBack(s: PlayerState): (r: PlayerState)
    ensures s.hasVideo ==> r.mediaTime == SkipBackTime(s.mediaTime) && !r.videoEnded
    ensures r.(mediaTime := s.mediaTime, videoEnded := s.videoEnded) == s
    ensures !s.hasVideo ==> r == s
  {
    if s.hasVideo then s.(mediaTime := SkipBackTime(s.mediaTime), videoEnded := false) else s
  }

  /** `skipForward`: ten seconds on along the element, the ended flag untouched. */
  function SkippedForward(s: PlayerState): (r: PlayerState)
    ensures s.hasVideo ==> r.mediaTime == SkipForwardTime(s.mediaTime, s.mediaDuration)
    ensures r.(mediaTime := s.mediaTime) == s
    ensures !s.hasVideo ==> r == s
  {
    if s.hasVideo then s.(mediaTime := SkipForwardTime(s.mediaTime, s.mediaDuration)) else s
  }

  /** `changePlaybackSpeed`: with an element, the new rate is applied and the settings menu closes. */
  function SpeedChanged(s: PlayerState, speed: real): (r: PlayerState)
    ensures s.hasVideo ==> r.playbackRate == r.playbackSpeed == speed && !r.showSettings
    ensures r.(playbackRate := s.playbackRate, playbackSpeed := s.playbackSpeed,
               showSettings := s.showSettings) == s
    ensures !s.hasVideo ==> r == s
  {
    if s.hasVideo then s.(playbackRate := speed, playbackSpeed := speed, showSettings := false) else s
  }

  /** The settings button opens or closes the speed menu. */
  function SettingsToggled(s: PlayerState): (r: PlayerState)
    ensures r.showSettings == !s.showSettings
    ensures r.(showSettings := s.showSettings) == s
  {
    s.(showSettings := !s.showSettings)
  }

  /** The menu's close button hides the speed menu. */
  function SettingsClosed(s: PlayerState): (r: PlayerState)
    ensures !r.showSettings
    ensures r.(showSettings := s.showSettings) == s
  {
    s.(showSettings := false)
  }

  /**
   * The ended check run whenever the shown time, the length or the ended flag
   * changes: at the end playback stops and the video is ended; otherwise an
   * ended flag is cleared only once the time is more than a second from the end.
   */
  function EndedChecked(s: PlayerState): (r: PlayerState)
    ensures IsVideoEnded(s.currentTime, s.duration) ==> !r.isPlaying && r.videoEnded
    ensures !IsVideoEnded(s.currentTime, s.duration) ==>
      r.isPlaying == s.isPlaying &&
      (r.videoEnded <==> s.videoEnded && s.currentTime >= s.duration - RewindMargin)
    ensures r.(isPlaying := s.isPlaying, videoEnded := s.videoEnded) == s
  {
    if IsVideoEnded(s.currentTime, s.duration) then s.(isPlaying := false, videoEnded := true)
    else if s.videoEnded && s.currentTime < s.duration - RewindMargin then s.(videoEnded := false)
    else s
  }

  /**
   * `handleTimeUpdate` without the progress bar: the element's time is
   * copied to the display, and an ended flag is dropped once the element is
   * no longer at its end.
   */
  function TimeUpdated(s: PlayerState): (r: PlayerState)
    ensures s.hasVideo ==>
      r.currentTime == s.mediaTime &&
      (r.videoEnded <==> s.videoEnded && IsVideoEnded(s.mediaTime, s.mediaDuration))
    ensures r.(currentTime := s.currentTime, videoEnded := s.videoEnded) == s
    ensures !s.hasVideo ==> r == s
  {
    if !s.hasVideo then s
    else if s.videoEnded && !IsVideoEnded(s.mediaTime, s.mediaDuration) then
      s.(currentTime := s.mediaTime, videoEnded := false)
    else s.(currentTime := s.mediaTime)
  }

  /** `handleLoadedMetadata`: the element's length becomes the displayed length. */
  function MetadataLoaded(s: PlayerState): (r: PlayerState)
    ensures s.hasVideo ==> r.duration == s.mediaDuration
    ensures r.(duration := s.duration) == s
    ensures !s.hasVideo ==> r == s
  {
    if s.hasVideo then s.(duration := s.mediaDuration) else s
  }

  /** Keys the keyboard handler tells apart. */
  datatype Key = ArrowLeft | ArrowRight | ArrowUp | ArrowDown | Space | Escape | OtherKey

  /** `handleKeyDown`, on the state this model keeps. */
  function KeyHandled(s: PlayerState, k: Key): (r: PlayerState)
    ensures k == ArrowLeft ==> r == SkippedBack(s)
    ensures k == ArrowRight ==> r == SkippedForward(s)
    ensures k == ArrowUp ==> r == VolumeRaised(s)
    ensures k == ArrowDown ==> r == VolumeLowered(s)
    ensures k == Space ==> r == PlayToggled(s)
    ensures k == Escape || k == OtherKey ==> r == s
  {
    match k
    case ArrowLeft => SkippedBack(s)
    case ArrowRight => SkippedForward(s)
    case ArrowUp => VolumeRaised(s)
    case ArrowDown => VolumeLowered(s)
    case Space => PlayToggled(s)
    case Escape => s
    case OtherKey => s
  }

  // ---------------------------------------------------------------------
  // Properties of the transitions
  // ---------------------------------------------------------------------

  /** Every key keeps the volume in [0, 1] and the element's time within the video. */
  lemma {:induction false} KeyKeepsValid(s: PlayerState, k: Key)
    requires Valid(s)
    ensures Valid(KeyHandled(s, k))
  {
    match k
    case ArrowLeft =>
      assert SkipBackTime(s.mediaTime) <= s.mediaTime;
    case ArrowRight =>
      assert 0.0 <= s.mediaTime <= SkipForwardTime(s.mediaTime, s.mediaDuration);
    case ArrowUp =>
      assert 0.0 <= RaiseVolume(s.volume) <= 1.0;
    case ArrowDown =>
      assert 0.0 <= LowerVolume(s.volume) <= 1.0;
    case Space =>
    case Escape =>
    case OtherKey =>
  }

  /** What a user or the element can do to the player. */
  datatype Event =
    | PlayClick
    | MuteClick
    | VolumeSlider(value: real)
    | KeyPress(key: Key)
    | SpeedChoice(speed: real)
    | SettingsClick
    | SettingsClose
    | TimeUpdate
    | MetadataLoad
    | EndedCheck

  /** The volume slider only offers values in [0, 1]. */
  predicate Possible(e: Event) {
    e.VolumeSlider? ==> 0.0 <= e.value <= 1.0
  }

  function Apply(s: PlayerState, e: Event): PlayerState {
    match e
    case PlayClick => PlayToggled(s)
    case MuteClick => MuteToggled(s)
    case VolumeSlider(v) => VolumeSet(s, v)
    case KeyPress(k) => KeyHandled(s, k)
    case SpeedChoice(speed) => SpeedChanged(s, speed)
    case SettingsClick => SettingsToggled(s)
    case SettingsClose => SettingsClosed(s)
    case TimeUpdate => TimeUpdated(s)
    case MetadataLoad => MetadataLoaded(s)
    case EndedCheck => EndedChecked(s)
  }

  /** The state after the events, in order. */
  function Replay(s: PlayerState, events: seq<Event>): PlayerState
    decreases |events|
  {
    if |events| == 0 then s else Replay(Apply(s, events[0]), events[1..])
  }

  /** One possible event keeps the ranges. */
  lemma {:induction false} ApplyKeepsValid(s: PlayerState, e: Event)
    requires Valid(s) && Possible(e)
    ensures Valid(Apply(s, e))
  {
    match e
    case KeyPress(k) => KeyKeepsValid(s, k);
    case _ =>
  }

  /**
   * Whatever the user does, the volume stays in [0, 1] and the element's time
   * within the video.
   */
  lemma {:induction false} ReplayKeepsValid(s: PlayerState, events: seq<Event>)
    requires Valid(s)
    requires forall i :: 0 <= i < |events| ==> Possible(events[i])
    ensures Valid(Replay(s, events))
    decreases |events|
  {
    if |events| > 0 {
      ApplyKeepsValid(s, events[0]);
      assert forall i :: 0 <= i < |events| - 1 ==> events[1..][i] == events[i + 1];
      ReplayKeepsValid(Apply(s, events[0]), events[1..]);
    }
  }

  /**
   * The ended check settles: run again on its own result (the page re-runs it
   * because it changed the ended flag), it changes nothing more.
   */
  lemma EndedCheckSettles(s: PlayerState)
    ensures EndedChecked(EndedChecked(s)) == EndedChecked(s)
  {
  }

  /**
   * From a flag that is unset or agrees with the end, the check leaves the flag
   * holding exactly when the video is at its end: it is never set away from it.
   */
  lemma {:induction false} EndedFlagFollowsEnd(s: PlayerState)
    requires !s.videoEnded || IsVideoEnded(s.currentTime, s.duration)
    ensures var r := EndedChecked(s);
      r.videoEnded <==> IsVideoEnded(s.currentTime, s.duration)
  {
  }

  /** Muting twice gives back the state muting started from. */
  lemma MuteTwice(s: PlayerState)
    requires s.isMuted == s.mediaMuted
    ensures MuteToggled(MuteToggled(s)) == s
  {
  }

  /** Closing the speed menu undoes opening it, and closing it again does nothing. */
  lemma CloseUndoesOpen(s: PlayerState)
    requires !s.showSettings
    ensures SettingsClosed(SettingsToggled(s)) == s
    ensures SettingsClosed(SettingsClosed(s)) == SettingsClosed(s)
  {
  }

  /**
   * Playing twice gives back the state playing started from, unless the
   * element was at its end, from where playing restarts it.
   */
  lemma PlayTwice(s: PlayerState)
    requires s.mediaPaused == !s.isPlaying
    requires !s.hasVideo || s.mediaTime < s.mediaDuration
    ensures PlayToggled(PlayToggled(s)) == s
  {
  }

  /**
   * The arrow keys and the slider change the shown muted flag but never the
   * element's: after muting with the button, one press of the up arrow shows
   * the player as unmuted while the element stays muted.
   */
  lemma VolumeKeysLeaveElementMuted(s: PlayerState)
    requires s.hasVideo && !s.isMuted && !s.mediaMuted
    ensures var r := VolumeRaised(MuteToggled(s));
      !r.isMuted && r.mediaMuted
  {
  }

  /** Skipping back from the end of a long video, then letting the page catch up, leaves it not ended. */
  lemma {:induction false} SkipBackLeavesEnd(s: PlayerState)
    requires Valid(s) && s.hasVideo && s.mediaDuration > SkipSeconds
    requires s.duration == s.mediaDuration
    ensures var r := EndedChecked(TimeUpdated(SkippedBack(s)));
      !r.videoEnded && r.currentTime < r.duration - RewindMargin
  {
    var b := SkippedBack(s);
    assert b.mediaTime <= s.mediaDuration - SkipSeconds;
    var u := TimeUpdated(b);
    assert u.currentTime == b.mediaTime && !u.videoEnded;
    assert !IsVideoEnded(u.currentTime, u.duration);
  }

  // ---------------------------------------------------------------------
  // The page component
  // ---------------------------------------------------------------------

  /** The player page's state and its `<video>` element, updated in place by the handlers. */
  class Player {
    const hasVideo: bool
    var isPlaying: bool
    var currentTime: real
    var duration: real
    var volume: real
    var isMuted: bool
    var showSettings: bool
    var playbackSpeed: real
    var videoEnded: bool
    var mediaTime: real
    var mediaDuration: real
    var mediaVolume: real
    var mediaMuted: bool
    var mediaPaused: bool
    var playbackRate: real

    function State(): PlayerState
      reads this
    {
      PlayerState(hasVideo, isPlaying, currentTime, duration, volume, isMuted, showSettings,
                  playbackSpeed, videoEnded, mediaTime, mediaDuration, mediaVolume, mediaMuted,
                  mediaPaused, playbackRate)
    }

    constructor (element: bool, length: real)
      requires length >= 0.0
      ensures State() == Initial(element, length) && Valid(State())
    {
      hasVideo := element;
      isPlaying := false;
      currentTime := 0.0;
      duration := 0.0;
      volume := 1.0;
      isMuted := false;
      showSettings := false;
      playbackSpeed := 1.0;
      videoEnded := false;
      mediaTime := 0.0;
      mediaDuration := length;
      mediaVolume := 1.0;
      mediaMuted := false;
      mediaPaused := true;
      playbackRate := 1.0;
    }

    method TogglePlay()
      modifies this
      ensures State() == PlayToggled(old(State()))
      ensures Valid(old(State())) ==> Valid(State())
    {
      if hasVideo {
        if isPlaying {
          mediaPaused := true;
        } else {
          if mediaTime >= mediaDuration {
            mediaTime := 0.0;
          }
          mediaPaused := false;
        }
        isPlaying := !isPlaying;
      }
    }

    method ToggleMute()
      modifies this
      ensures State() == MuteToggled(old(State()))
      ensures Valid(old(State())) ==> Valid(State())
    {
      if hasVideo {
        mediaMuted := !isMuted;
        isMuted := !isMuted;
      }
    }

    method HandleVolumeChange(newVolume: real)
      requires Valid(State()) && 0.0 <= newVolume <= 1.0
      modifies this
      ensures State() == VolumeSet(old(State()), newVolume) && Valid(State())
    {
      volume := newVolume;
      if hasVideo {
        mediaVolume := newVolume;
        isMuted := newVolume == 0.0;
      }
    }

    method VolumeUp()
      requires Valid(State())
      modifies this
      ensures State() == VolumeRaised(old(State())) && Valid(State())
    {
      if hasVideo {
        var newVolume := Min(1.0, volume + VolumeStep);
        volume := newVolume;
        mediaVolume := newVolume;
        isMuted := false;
      }
    }

    method VolumeDown()
      requires Valid(State())
      modifies this
      ensures State() == VolumeLowered(old(State())) && Valid(State())
    {
      if hasVideo {
        var newVolume := Max(0.0, volume - VolumeStep);
        volume := newVolume;
        mediaVolume := newVolume;
        isMuted := newVolume == 0.0;
      }
    }

    method SkipBackward()
      requires Valid(State())
      modifies this
      ensures State() == SkippedBack(old(State())) && Valid(State())
    {
      if hasVideo {
        mediaTime := Max(0.0, mediaTime - SkipSeconds);
        if videoEnded {
          videoEnded := false;
        }
      }
    }

    method SkipForward()
      requires Valid(State())
      modifies this
      ensures State() == SkippedForward(old(State())) && Valid(State())
    {
      if hasVideo {
        mediaTime := Min(mediaDuration, mediaTime + SkipSeconds);
      }
    }

    method ChangePlaybackSpeed(speed: real)
      modifies this
      ensures State() == SpeedChanged(old(State()), speed)
      ensures Valid(old(State())) ==> Valid(State())
    {
      if hasVideo {
        playbackRate := speed;
        playbackSpeed := speed;
        showSettings := false;
      }
    }

    method ToggleSettings()
      modifies this
      ensures State() == SettingsToggled(old(State()))
      ensures Valid(old(State())) ==> Valid(State())
    {
      showSettings := !showSettings;
    }

    method CloseSettings()
      modifies this
      ensures State() == SettingsClosed(old(State()))
      ensures Valid(old(State())) ==> Valid(State())
    {
      showSettings := false;
    }

    method CheckEnded()
      modifies this
      ensures State() == EndedChecked(old(State()))
      ensures Valid(old(State())) ==> Valid(State())
    {
      if IsVideoEnded(currentTime, duration) {
        isPlaying := false;
        videoEnded := true;
      } else if videoEnded && currentTime < duration - RewindMargin {
        videoEnded := false;
      }
    }

    method HandleTimeUpdate()
      modifies this
      ensures State() == TimeUpdated(old(State()))
      ensures Valid(old(State())) ==> Valid(State())
    {
      if hasVideo {
        currentTime := mediaTime;
        if videoEnded && !IsVideoEnded(mediaTime, mediaDuration) {
          videoEnded := false;
        }
      }
    }

    method HandleLoadedMetadata()
      modifies this
      ensures State() == MetadataLoaded(old(State()))
      ensures Valid(old(State())) ==> Valid(State())
    {
      if hasVideo {
        duration := mediaDuration;
      }
    }

    method HandleKeyDown(k: Key)
      requires Valid(State())
      modifies this
      ensures State() == KeyHandled(old(State()), k) && Valid(State())
    {
      match k
      case ArrowLeft => SkipBackward();
      case ArrowRight => SkipForward();
      case ArrowUp => VolumeUp();
      case ArrowDown => VolumeDown();
      case Space => TogglePlay();
      case Escape =>
      case OtherKey =>
    }
  }
}
